=== FILE: README.md ===
# Expense manager on Solana: a Dafny model

The system is a small expense manager. An Anchor program keeps one
`ExpenseAccount { id, owner, merchant_name, amount }` per signer and id. The
account lives at a program-derived address with the seeds `"expense"`, the
signer's 32-byte key and the id as 8 little-endian bytes. `initialize` creates
such an account, `update` rewrites it and `delete` closes it. A Next.js page
derives the same address (`getExpensePDA`) and lists the wallet's records by
reading ids 1 to 10 (`fetchExpenseData`, `fetchExpenses`). Its form drives the
three instructions (`initializeExpense`, `updateExpense`, `deleteExpense`) and
raises the `isFetching` and `isTransacting` flags around its work.

The model has seven modules:

- `Wrappers`: the `Option` and `Result` types that carry absent values and
  errors.
- `LittleEndian`: fixed-width little-endian encoding. This covers the program's
  `u64::to_le_bytes` and the client's `toArrayLike(Buffer, 'le', 8)`, with
  per-byte meaning, both round trips and injectivity. The client throws for ids
  of 2^64 and above.
- `Decimal`: `amount.toString()` and `new BN(text)` on form fields, with the
  u64 decimal round trip. Text with a leading '-' is sent as its magnitude,
  which is what bn.js and the u64 encoder write.
- `Seeds`: the seed bytes and the address. The address is symbolic, as
  `ProgramAddress(preimage, programId)`, so SHA-256 is idealised as
  collision-free. The bump search is deterministic and is dropped.
  - The client and the program build the same seeds.
  - Distinct (owner, id) pairs give distinct addresses.
- `ExpenseProgram`: the three instructions, including the account constraints
  that decide them.
  - A wrong address fails with `ConstraintSeeds`.
  - `init` on an existing account fails with `AccountAlreadyInUse`.
  - `mut`/`close` on a missing account fails with `AccountNotInitialized`.
  - A record larger than the fixed 252-byte space fails with
    `AccountDidNotSerialize`.
  - Proved invariants:
    - every record lives at the address its own owner and id derive;
    - a signer can touch only records it owns.
- `Listing`: the read of one id and the scan of ids 1 to 10.
- `Page`: the page's handlers. Each handler is a pure function from the
  starting UI state, the session (wallet and client program id), the ledger
  (deployed program id and accounts) and the network's answers. It returns the
  UI states it passes through, the ledger it leaves and the alert it raises.

The network's answers are inputs, not computed. They say whether `.rpc()`
delivers the transaction, whether `confirmTransaction(…, "finalized")`
resolves, and which reads fail.

The handlers call `fetchExpenses` inside their `try`, so during the refresh
after a successful create, update or delete both `isFetching` and
`isTransacting` are raised (`Page.BothFlagsDuringRefresh`).

The client's program id (app/page.js:22) and the deployed program's id are
separate parameters. `Page.MismatchedProgramIdNeverWrites` shows that when they
differ, no handler can change the ledger.

## Model

| member | source | states |
|---|---|---|
| LittleEndian.LeBytesDigit | app/page.js:27 | byte i of the encoding is digit i of the value in base 256, (x / 256^i) mod 256 |
| LittleEndian.LeRoundTrip | app/page.js:27 | decoding the little-endian bytes of any value below 256^width gives the value back |
| LittleEndian.LeValueRoundTrip | app/page.js:27 | encoding the value of any byte string at its own width gives the same bytes, so every byte string is some value's encoding |
| LittleEndian.LeBytesInjective | program/lib.rs:58 | two values that fit the width have equal encodings if and only if they are equal |
| LittleEndian.U64LeBytes | program/lib.rs:58 | `to_le_bytes` of a u64 is exactly 8 bytes |
| LittleEndian.U64LeBytesRoundTrip | program/lib.rs:58 | the 8 bytes of a u64 decode to it, and two u64 values have the same bytes if and only if they are equal |
| LittleEndian.BnToArrayLikeLe | app/page.js:27 | for a positive width, as the page's 8, `toArrayLike` gives bytes exactly when the value fits the width and throws otherwise; the bytes are exactly `width` long |
| LittleEndian.ClientIdBytesMatchProgram | app/page.js:27 | for every u64 id the client's 8 bytes equal the program's `to_le_bytes` and decode to the id; ids of 2^64 and above throw |
| Decimal.DecimalString | app/page.js:40 | `toString()` gives non-empty digit text with no leading zero, and text starting with '0' only for 0 |
| Decimal.ParseU64 | app/page.js:90 | a form field converts to a u64 exactly when `new BN` reads it as a value whose magnitude is below 2^64, and the u64 is that magnitude |
| Decimal.NegativeTextSendsMagnitude | app/page.js:90 | text of digits after a '-' is sent as the digits' value, because only the magnitude is encoded; a bare '-' or a '-' before a non-digit throws |
| Decimal.DecimalRoundTrip | app/page.js:111 | reading back the decimal text of any id gives the id |
| Decimal.CanonicalRoundTrip | app/page.js:40 | digit text without a leading zero is the rendering of its own value |
| Decimal.U64DecimalRoundTrip | app/page.js:124 | an amount shown as text and sent back through `new BN(amount)` is the same u64 |
| Decimal.CanonicalIffStable | app/page.js:124 | text survives being read and rendered again if and only if it is digits without a leading zero |
| Seeds.ExpenseTagBytes | app/page.js:27 | the ASCII bytes of "expense" are the seed constant 101,120,112,101,110,115,101 |
| Seeds.ClientExpensePda | app/page.js:25-31 | `getExpensePDA` yields an address exactly when the id fits 8 bytes |
| Seeds.ExpensePreimageLayout | app/page.js:26-28 | the seed bytes are the tag, then the owner key, then the 8 id bytes, 47 bytes in all |
| Seeds.ExpensePreimageInjective | program/lib.rs:58 | two (owner, id) pairs give the same seed bytes if and only if they are the same pair |
| Seeds.ProgramAddressInjective | program/lib.rs:71 | under one program id, two expense addresses are equal if and only if their owner and id are |
| Seeds.AddressesSeparateProgramIds | app/page.js:22 | addresses derived under different program ids never coincide; this is the collision-free idealisation of the address hash, not a property of the program |
| Seeds.ClientMatchesProgram | app/page.js:25-31 | for every u64 id, the client's PDA is the address the program's seeds constraint expects |
| ExpenseProgram.Utf8LengthBounds | program/lib.rs:98 | a name takes between one and four UTF-8 bytes per character |
| ExpenseProgram.NameFitBounds | program/lib.rs:57 | with space 8+8+32+4+200, a name of at most 48 characters always fits and one of more than 192 never does |
| ExpenseProgram.Initialize | program/lib.rs:9-24 | succeeds if and only if the account is the address derived from the signer and id, holds nothing yet and the name takes at most 192 bytes; it then stores exactly the given id, name and amount with the signer as owner, and changes nothing else; a wrong address fails with ConstraintSeeds and an existing one with AccountAlreadyInUse |
| ExpenseProgram.Update | program/lib.rs:26-38 | succeeds if and only if an account exists, it is the derived address and the new name fits; it then rewrites id, name and amount, keeps the owner and changes nothing else; a missing account fails with AccountNotInitialized |
| ExpenseProgram.Delete | program/lib.rs:80-93 | succeeds if and only if an account exists at the derived address; it then leaves that address empty and every other record unchanged; a missing account fails with AccountNotInitialized |
| ExpenseProgram.ExecuteTouchesOnlyDerivedAddress | program/lib.rs:54-60 | a successful instruction names the address derived from the signer and its id, and changes no other address |
| ExpenseProgram.ExecutePreservesValid | program/lib.rs:14-19 | if every record lives at the address derived from its own owner and id and fits its space, every instruction keeps it so |
| ExpenseProgram.SignerConfinement | program/lib.rs:52-58 | in a valid store, a signer's instruction neither changes, removes nor creates a record owned by anyone else |
| ExpenseProgram.UpdateKeepsIdentity | program/lib.rs:64-77 | an update in a valid store is by the record's owner and writes the id the record already had |
| ExpenseProgram.DeleteThenAbsent | program/lib.rs:85-91 | a delete of an existing record succeeds and leaves its address empty |
| ExpenseProgram.InitializeTwiceFails | program/lib.rs:54-60 | a second `initialize` for the same signer and id fails with AccountAlreadyInUse, whatever it carries |
| Listing.FetchExpenseDataMeaning | app/page.js:33-46 | a read returns a record exactly when a wallet is connected, the id fits 8 bytes, the network delivers the read and an account exists; the record is that account's name and its amount as decimal text, under the requested id |
| Listing.SuccessesIdsInRange | app/page.js:53-56 | the scan of n reads holds only ids from 1 to n |
| Listing.SuccessesAscending | app/page.js:53-56 | the scanned ids strictly ascend, so none repeats |
| Listing.SuccessesAreReads | app/page.js:54-55 | every scanned record is the one its id's read returned |
| Listing.SuccessesListExactly | app/page.js:55 | an id is in the scan exactly when it is in range and its read returned a record |
| Listing.ScanStep | app/page.js:53-56 | one more iteration appends the next id's record when its read succeeds, and nothing otherwise |
| Listing.ScanListsExactlyReadable | app/page.js:42-45 | an id is listed exactly when it is in range and readable; a failed read is skipped and the scan goes on |
| Listing.ScanItemsAreReads | app/page.js:37-41 | every listed record is in range and equals its id's read |
| Listing.ScanIgnoresOtherAddresses | app/page.js:53 | the list does not change when an account is added or replaced at an address no id from 1 to n derives, such as one with an id above 10 |
| Listing.ScanExpenses | app/page.js:51-57 | the loop over ids 1 to 10 yields ids in [1, 10] in strictly ascending order, listing each id exactly when it is readable |
| Page.FetchExpenses | app/page.js:48-63 | without a wallet nothing happens; otherwise `isFetching` is raised and then lowered in the final state, and the form, edit mode and `isTransacting` stay as they were |
| Page.FetchExpensesListing | app/page.js:53-57 | the stored list holds ids 1 to 10 only, and each id exactly when it is readable |
| Page.ResetForm | app/page.js:69-74 | all three fields are cleared and edit mode is left; the list and the flags are kept |
| Page.HandleUpdateFields | app/page.js:110-115 | edit mode is entered; the id field reads back as the record's id, and the name and amount fields are the record's; the list and the flags are kept |
| Page.PrepareWrite | app/page.js:88-90 | the conversions succeed exactly when both the id and the amount fields read as u64 values; the PDA is the address the program derives for that id |
| Page.Transact | app/page.js:96-98 | a transaction that is delivered and accepted by the program is applied, and success is confirmed exactly when finalization is; one that is not delivered or is rejected changes nothing and is not confirmed |
| Page.Failure | app/page.js:102-107 | a caught error raises the failure alert, leaves the ledger, the form, the list and `isFetching` as they were and lowers `isTransacting` |
| Page.Conclude | app/page.js:98-106 | after the transaction, `isTransacting` stays raised until the last state; confirmed success reports the handler's alert and otherwise the failure; the form is reset only on confirmed success when the handler resets; after a confirmed success with a wallet the refresh leaves `isFetching` lowered, and otherwise the list and `isFetching` are as they were |
| Page.InitializeExpense | app/page.js:76-108 | nothing is sent without a wallet, which alerts connect-your-wallet, or with an empty field, which alerts fill-all-fields; otherwise the alert is either the success or the failure alert, and `isTransacting` brackets the run; the ledger changes only at the derived address, and a create that reports success stored the form's record at an address that was free, and reset the form |
| Page.UpdateExpense | app/page.js:117-141 | outside edit mode nothing happens and no alert is raised; without a wallet it fails and changes nothing; in edit mode the alert is either the success or the failure alert; a reported success rewrote the existing record at the derived address, kept its owner and reset the form |
| Page.DeleteExpense | app/page.js:143-166 | a declined confirmation does nothing and raises no alert; otherwise `isTransacting` brackets the run, the alert is either the success or the failure alert, the form is kept, and a reported success removed a record that was there |
| Page.ConcludeShowsScan | app/page.js:99 | after confirmed success the page shows the scan of the new ledger |
| Page.ShownAsRead | app/page.js:54-55 | a readable record with an id from 1 to 10 is shown exactly as its read returned it |
| Page.EditThenUpdateKeepsRecord | app/page.js:110-124 | taking a listed record into the form and saving it unchanged succeeds and leaves the ledger as it was |
| Page.CreatedThenListed | app/page.js:88-101 | after a reported create of an id from 1 to 10 whose read succeeds, the list shows the created name and amount |
| Page.UpdatedThenListed | app/page.js:122-134 | after a reported update of an id from 1 to 10 whose read succeeds, the list shows the new name and amount |
| Page.DeletedThenUnlisted | app/page.js:148-159 | after a reported delete the id is no longer listed |
| Page.BothFlagsDuringRefresh | app/page.js:86-99 | during the refresh after a successful create, `isFetching` and `isTransacting` are both raised |
| Page.MismatchedProgramIdNeverWrites | app/page.js:22 | if the page derives addresses under a program id other than the deployed one, no create, update or delete changes the ledger |
| Page.UnconfirmedCreateStillWrites | app/page.js:96-104 | a create the program accepted but whose finalization is not confirmed is reported as a failure although the record exists |
| Page.ResetBlocksCreate | app/page.js:81-84 | after `resetForm`, a create is refused with the fill-all-fields alert and nothing is sent |
| Page.CreateSucceeds | app/page.js:86-101 | a create is reported as a success exactly when there is a wallet, no field is empty, both fields convert to u64, the page uses the deployed program id, the address is free, the name fits, and the network delivers and finalizes; the ledger then is the old one plus exactly the new record |
| Page.UpdateSucceeds | app/page.js:118-134 | an update is reported as a success exactly when edit mode is on, there is a wallet, both fields convert to u64, the page uses the deployed program id, a record exists at the address, the name fits, and the network delivers and finalizes |
| Page.UpdateSucceedsStores | app/page.js:122-133 | a successful update leaves the ledger as it was except that the record at the address carries the form's id, name and amount under its old owner |
| Page.DeleteSucceeds | app/page.js:144-159 | a delete is reported as a success exactly when the prompt is confirmed, there is a wallet, the id fits 8 bytes, the page uses the deployed program id, a record exists at the address, and the network delivers and finalizes; only that record is then gone |
| Page.CreateSettlesIdle | app/page.js:76-107 | a create that starts with both busy flags low ends with both low on every exit path, and one that reports no success leaves the list and `isFetching` as they were |
| Page.UpdateSettlesIdle | app/page.js:116-140 | an update that starts with both busy flags low ends with both low on every exit path, and one that reports no success leaves the list and `isFetching` as they were |
| Page.DeleteSettlesIdle | app/page.js:142-165 | a delete that starts with both busy flags low ends with both low on every exit path, and one that reports no success leaves the list and `isFetching` as they were |

## Left out

- Page.FetchExpenses: its own contract covers only the flags and the untouched fields, not the list it stores. `Page.FetchExpensesListing` and `Page.ConcludeShowsScan` state what is listed.
- React rendering, hooks and the `useEffect` that refreshes on wallet change (app/page.js:65-67, 168-300) are UI wiring with no logic to state.
- SHA-256, the bump search and the off-curve check inside `findProgramAddressSync` / `find_program_address` are not modelled. An address is the seed bytes together with the program id, so the hash is taken as collision-free.
- Solana's own limits on seeds (at most 16 seeds, 32 bytes each) are not checked. The three seeds here meet them.
- Sending the transaction, wallet signing and `confirmTransaction` are inputs (`Network`), not computed. So are which reads fail and the answer to `window.confirm`.
- The alert is computed as the handler's `Notice`. The failure alert's text, `error.message` or the handler's fallback message (app/page.js:104, 137, 162), is collapsed into the single `Failed`, because the error's message comes from code outside this model.
- Borsh encoding, account discriminators, rent and the lamport transfer that `close = signer` makes are left out. Only the size check that the fixed space imposes is kept.
- Program ids are parameters. The ids in app/page.js:22, app/idl.js and program/lib.rs:3 disagree with one another.
- `delete` is modelled as keyed by (signer, id), as its seeds constraint reads it (program/lib.rs:81-88). The interface description declares no arguments for it while the client passes an id. The model does not claim that the client's call is accepted on the wire, so the network's delivery is an input.
- bn.js strips whitespace from text before reading it. The model does not, because a number input never holds whitespace.
- app/helper.js is an unused prototype. app/providers/WalletButtonClient.js is a mount guard. app/idl.js is only a declaration. None of them is part of this model, beyond the seed constant and the field order taken from app/idl.js.
- Handlers running at the same time are not modelled. Each handler runs alone, from its start to its `finally`.
- The page's amount text is what `toString()` gives. The model does not follow bn.js inside `toString` beyond producing base-10 digits.

=== FILE: decimal.dfy ===
/** Base-10 text of unsigned integers: `amount.toString()` when a record is read
    back, and `new BN(text)` when a form field is sent. */
module Decimal {
  import opened Wrappers
  import opened LittleEndian

  predicate IsDigit(c: char) {
    '0' <= c <= '9'
  }

  predicate AllDigits(s: string) {
    forall i :: 0 <= i < |s| ==> IsDigit(s[i])
  }

  function DigitValue(c: char): (d: nat)
    requires IsDigit(c)
  {
    c as int - '0' as int
  }

  function DigitChar(d: nat): (c: char)
    requires d < 10
    ensures IsDigit(c) && DigitValue(c) == d
  {
    ('0' as int + d) as char
  }

  /** The text `toString()` gives a non-negative integer: digits only, no leading zero. */
  predicate IsCanonical(s: string) {
    && |s| > 0
    && AllDigits(s)
    && (|s| > 1 ==> s[0] != '0')
  }

  /** Base-10 rendering, most significant digit first. */
  function DecimalString(n: nat): (s: string)
    ensures IsCanonical(s)
    ensures s[0] == '0' ==> n == 0
    decreases n
  {
    if n < 10 then [DigitChar(n)] else DecimalString(n / 10) + [DigitChar(n % 10)]
  }

  /** The value of a string of decimal digits; the empty string denotes 0. */
  function DigitsValue(s: string): (n: nat)
    requires AllDigits(s)
  {
    if |s| == 0 then 0 else 10 * DigitsValue(s[..|s| - 1]) + DigitValue(s[|s| - 1])
  }

  /** The value `new BN(s)` puts on the wire for a form field. A number input
      holds digits, optionally after a '-', or a fraction or exponent. bn.js
      reads a falsy argument (the empty string) as 0. A leading '-' only sets
      the sign, and both `toArrayLike` and the u64 encoder write the magnitude,
      so "-5" is sent as 5. Any other non-digit, such as '.' or 'e', makes its
      parser throw ("Invalid character"). */
  function ParseBn(s: string): (r: Option<nat>)
  {
    if AllDigits(s) then Some(DigitsValue(s))
    else if |s| > 1 && s[0] == '-' && AllDigits(s[1..]) then Some(DigitsValue(s[1..]))
    else None
  }

  /** Text with a leading '-' is sent as the value of its digits, and a bare '-'
      or a '-' before anything but digits throws. */
  lemma NegativeTextSendsMagnitude(d: string)
    ensures |d| > 0 && AllDigits(d) ==> ParseBn("-" + d) == Some(DigitsValue(d))
    ensures !AllDigits(d) || |d| == 0 ==> ParseBn("-" + d).None?
  {
    var s := "-" + d;
    assert s[1..] == d;
    assert !IsDigit(s[0]);
  }

  /** A form field sent as a `u64` instruction argument: the Borsh encoder
      throws for a value that needs more than 8 bytes. */
  function ParseU64(s: string): (r: Option<u64>)
    ensures r.Some? ==> ParseBn(s) == Some(r.value as nat)
    ensures r.None? ==> ParseBn(s).None? || ParseBn(s).value >= U64_BOUND
  {
    match ParseBn(s)
    case Some(n) => if n < U64_BOUND then Some(n) else None
    case None => None
  }

  /** Reading the rendering of `n` gives `n` back. */
  lemma {:induction false} DecimalRoundTrip(n: nat)
    ensures DigitsValue(DecimalString(n)) == n
    decreases n
  {
    if n >= 10 {
      var s := DecimalString(n);
      assert s[..|s| - 1] == DecimalString(n / 10);
      DecimalRoundTrip(n / 10);
    }
  }

  lemma {:induction false} LeadingDigitBound(s: string)
    requires |s| > 0 && AllDigits(s)
    ensures DigitsValue(s) >= DigitValue(s[0])
  {
    if |s| > 1 {
      var p := s[..|s| - 1];
      assert p[0] == s[0];
      LeadingDigitBound(p);
    }
  }

  /** Rendering the value of canonical text gives the same text back. */
  lemma {:induction false} CanonicalRoundTrip(s: string)
    requires IsCanonical(s)
    ensures DecimalString(DigitsValue(s)) == s
  {
    var last := s[|s| - 1];
    if |s| == 1 {
      assert DigitChar(DigitValue(last)) == last;
      assert s == [last];
    } else {
      var p := s[..|s| - 1];
      assert p[0] == s[0];
      LeadingDigitBound(p);
      CanonicalRoundTrip(p);
      var v := DigitsValue(s);
      assert v == 10 * DigitsValue(p) + DigitValue(last);
      assert v / 10 == DigitsValue(p) && v % 10 == DigitValue(last);
      assert DigitChar(DigitValue(last)) == last;
      assert s == p + [last];
    }
  }

  /** The amount round trip: a u64 rendered by `toString()` and read back by
      `new BN(...)` as a u64 argument is the same u64. */
  lemma U64DecimalRoundTrip(x: u64)
    ensures ParseU64(DecimalString(x)) == Some(x)
  {
    DecimalRoundTrip(x);
  }

  /** Canonical text is exactly the text that survives being read and rendered again. */
  lemma CanonicalIffStable(s: string)
    ensures IsCanonical(s) <==> (ParseBn(s).Some? && DecimalString(ParseBn(s).value) == s)
  {
    if IsCanonical(s) {
      CanonicalRoundTrip(s);
    }
  }
}

=== FILE: expense_program.dfy ===
/** The on-chain expense program: one `ExpenseAccount` per (signer, id) at the
    address the seeds derive, created by `initialize`, rewritten by `update`
    and closed by `delete`. A transaction either succeeds as a whole or leaves
    every account as it was. */
module ExpenseProgram {
  import opened Wrappers
  import opened LittleEndian
  import opened Seeds

  datatype ExpenseAccount = ExpenseAccount(id: u64, owner: Pubkey, merchantName: string, amount: u64)

  /** The program's accounts, by address. */
  type Store = map<Address, ExpenseAccount>

  /** Why a transaction is rejected. `AccountAlreadyInUse` is the system program's
      error: `init` creates the account through it, and it refuses an address that
      already holds one. The others are Anchor's constraint and serialization errors. */
  datatype ProgramError =
    | ConstraintSeeds         // the account passed is not the address the seeds derive
    | AccountAlreadyInUse     // `init` on an address that already holds an account
    | AccountNotInitialized   // `mut` or `close` on an address that holds no expense account
    | AccountDidNotSerialize  // the record does not fit the account's fixed space

  datatype Instruction =
    | InitializeIx(id: u64, merchantName: string, amount: u64)
    | UpdateIx(id: u64, merchantName: string, amount: u64)
    | DeleteIx(id: u64)
  {
    function Id(): (id: u64) {
      match this
      case InitializeIx(id, _, _) => id
      case UpdateIx(id, _, _) => id
      case DeleteIx(id) => id
    }
  }

  /** `space = 8 + 8 + 32 + 4 + 200`, fixed when the account is created. */
  const ACCOUNT_SPACE: nat := 8 + 8 + 32 + 4 + 200

  /** The longest merchant name, in UTF-8 bytes, that still leaves room for `amount`. */
  const MAX_NAME_BYTES: nat := 192

  /** Bytes UTF-8 uses for one Unicode scalar value. */
  function Utf8Width(c: char): (n: nat)
  {
    if c as int < 0x80 then 1
    else if c as int < 0x800 then 2
    else if c as int < 0x1_0000 then 3
    else 4
  }

  /** Bytes of the UTF-8 encoding of `s`. */
  function Utf8Length(s: string): (n: nat)
  {
    if |s| == 0 then 0 else Utf8Length(s[..|s| - 1]) + Utf8Width(s[|s| - 1])
  }

  /** Every character takes one to four bytes. */
  lemma {:induction false} Utf8LengthBounds(s: string)
    ensures |s| <= Utf8Length(s) <= 4 * |s|
  {
    if |s| > 0 {
      Utf8LengthBounds(s[..|s| - 1]);
    }
  }

  /** Serialized size: discriminator, id, owner, string length prefix, name bytes, amount. */
  function SerializedSize(acct: ExpenseAccount): (n: nat)
  {
    8 + 8 + 32 + 4 + Utf8Length(acct.merchantName) + 8
  }

  predicate Fits(acct: ExpenseAccount)
  {
    SerializedSize(acct) <= ACCOUNT_SPACE
  }

  /** A name of at most 48 characters always fits; one of more than 192 never does. */
  lemma NameFitBounds(acct: ExpenseAccount)
    ensures |acct.merchantName| <= 48 ==> Fits(acct)
    ensures |acct.merchantName| > MAX_NAME_BYTES ==> !Fits(acct)
  {
    Utf8LengthBounds(acct.merchantName);
  }

  /** `after` agrees with `before` everywhere except possibly at `at`. */
  ghost predicate OnlyChanged(before: Store, after: Store, at: Address)
  {
    forall a :: a != at ==> (a in before <==> a in after) && (a in before ==> before[a] == after[a])
  }

  /** `initialize`: `init` creates the account at the derived address, and the
      handler writes the given id, name and amount with the signer as owner. */
  function Initialize(store: Store, programId: Pubkey, signer: Pubkey, account: Address,
                      id: u64, merchantName: string, amount: u64): (r: Result<Store, ProgramError>)
    ensures r.Ok? <==> && account == ProgramExpenseAddress(programId, signer, id)
                       && account !in store
                       && Utf8Length(merchantName) <= MAX_NAME_BYTES
    ensures r.Ok? ==> && account in r.value
                      && r.value[account] == ExpenseAccount(id, signer, merchantName, amount)
                      && OnlyChanged(store, r.value, account)
    ensures account != ProgramExpenseAddress(programId, signer, id) ==> r == Err(ConstraintSeeds)
    ensures account == ProgramExpenseAddress(programId, signer, id) && account in store ==> r == Err(AccountAlreadyInUse)
  {
    var acct := ExpenseAccount(id, signer, merchantName, amount);
    if account != ProgramExpenseAddress(programId, signer, id) then Err(ConstraintSeeds)
    else if account in store then Err(AccountAlreadyInUse)
    else if !Fits(acct) then Err(AccountDidNotSerialize)
    else Ok(store[account := acct])
  }

  /** `update`: the account must already hold a record (`mut`, not `init`); the
      handler rewrites id, name and amount and keeps the owner. */
  function Update(store: Store, programId: Pubkey, signer: Pubkey, account: Address,
                  id: u64, merchantName: string, amount: u64): (r: Result<Store, ProgramError>)
    ensures r.Ok? <==> && account in store
                       && account == ProgramExpenseAddress(programId, signer, id)
                       && Utf8Length(merchantName) <= MAX_NAME_BYTES
    ensures r.Ok? ==> && account in r.value
                      && r.value[account] == ExpenseAccount(id, store[account].owner, merchantName, amount)
                      && OnlyChanged(store, r.value, account)
    ensures account !in store ==> r == Err(AccountNotInitialized)
    ensures account in store && account != ProgramExpenseAddress(programId, signer, id) ==> r == Err(ConstraintSeeds)
  {
    if account !in store then Err(AccountNotInitialized)
    else if account != ProgramExpenseAddress(programId, signer, id) then Err(ConstraintSeeds)
    else
      var acct := store[account].(id := id, merchantName := merchantName, amount := amount);
      if !Fits(acct) then Err(AccountDidNotSerialize)
      else Ok(store[account := acct])
  }

  /** `delete`: `close = signer` removes the account at the derived address. */
  function Delete(store: Store, programId: Pubkey, signer: Pubkey, account: Address, id: u64)
    : (r: Result<Store, ProgramError>)
    ensures r.Ok? <==> account in store && account == ProgramExpenseAddress(programId, signer, id)
    ensures r.Ok? ==> account !in r.value && OnlyChanged(store, r.value, account)
    ensures account !in store ==> r == Err(AccountNotInitialized)
    ensures account in store && account != ProgramExpenseAddress(programId, signer, id) ==> r == Err(ConstraintSeeds)
  {
    if account !in store then Err(AccountNotInitialized)
    else if account != ProgramExpenseAddress(programId, signer, id) then Err(ConstraintSeeds)
    else Ok(map a | a in store && a != account :: store[a])
  }

  /** One instruction of a transaction signed by `signer`, naming `account` as its expense account. */
  function Execute(store: Store, programId: Pubkey, signer: Pubkey, account: Address, ix: Instruction)
    : (r: Result<Store, ProgramError>)
  {
    match ix
    case InitializeIx(id, name, amount) => Initialize(store, programId, signer, account, id, name, amount)
    case UpdateIx(id, name, amount) => Update(store, programId, signer, account, id, name, amount)
    case DeleteIx(id) => Delete(store, programId, signer, account, id)
  }

  /** Every record lives at the address its own owner and id derive, and fits its space. */
  predicate Valid(programId: Pubkey, store: Store)
  {
    forall a :: a in store ==> a == ProgramExpenseAddress(programId, store[a].owner, store[a].id) && Fits(store[a])
  }

  /** A successful instruction touches only the address derived from the signer and its id. */
  lemma ExecuteTouchesOnlyDerivedAddress(store: Store, programId: Pubkey, signer: Pubkey, account: Address, ix: Instruction)
    requires Execute(store, programId, signer, account, ix).Ok?
    ensures account == ProgramExpenseAddress(programId, signer, ix.Id())
    ensures OnlyChanged(store, Execute(store, programId, signer, account, ix).value, account)
  {
  }

  /** Every instruction keeps every record at the address its owner and id derive. */
  lemma ExecutePreservesValid(store: Store, programId: Pubkey, signer: Pubkey, account: Address, ix: Instruction)
    requires Valid(programId, store)
    requires Execute(store, programId, signer, account, ix).Ok?
    ensures Valid(programId, Execute(store, programId, signer, account, ix).value)
  {
    var after := Execute(store, programId, signer, account, ix).value;
    if ix.UpdateIx? {
      var prev := store[account];
      ProgramAddressInjective(programId, prev.owner, prev.id, signer, ix.id);
      assert after[account].owner == signer;
    }
    forall a | a in after
      ensures a == ProgramExpenseAddress(programId, after[a].owner, after[a].id) && Fits(after[a])
    {
      if a != account {
        assert a in store && after[a] == store[a];
      }
    }
  }

  /** In a valid store a signer can neither change nor create nor remove a record
      owned by anyone else. */
  lemma SignerConfinement(store: Store, programId: Pubkey, signer: Pubkey, account: Address, ix: Instruction)
    requires Valid(programId, store)
    requires Execute(store, programId, signer, account, ix).Ok?
    ensures var after := Execute(store, programId, signer, account, ix).value;
      forall a :: (a in store && store[a].owner != signer) ==> (a in after && after[a] == store[a])
    ensures var after := Execute(store, programId, signer, account, ix).value;
      forall a :: (a in after && after[a].owner != signer) ==> (a in store && store[a] == after[a])
  {
    var after := Execute(store, programId, signer, account, ix).value;
    ExecutePreservesValid(store, programId, signer, account, ix);
    forall a | a in store && store[a].owner != signer
      ensures a in after && after[a] == store[a]
    {
      ProgramAddressInjective(programId, store[a].owner, store[a].id, signer, ix.Id());
    }
    forall a | a in after && after[a].owner != signer
      ensures a in store && store[a] == after[a]
    {
      ProgramAddressInjective(programId, after[a].owner, after[a].id, signer, ix.Id());
    }
  }

  /** An update of a valid store leaves the record's id as it was: the id written
      is the id the address was derived from. */
  lemma UpdateKeepsIdentity(store: Store, programId: Pubkey, signer: Pubkey, account: Address,
                            id: u64, merchantName: string, amount: u64)
    requires Valid(programId, store)
    requires Update(store, programId, signer, account, id, merchantName, amount).Ok?
    ensures Update(store, programId, signer, account, id, merchantName, amount).value[account].id == store[account].id
    ensures store[account].owner == signer
  {
    ProgramAddressInjective(programId, store[account].owner, store[account].id, signer, id);
  }

  /** After a successful delete nothing is left at the address. */
  lemma DeleteThenAbsent(store: Store, programId: Pubkey, signer: Pubkey, id: u64)
    requires ProgramExpenseAddress(programId, signer, id) in store
    ensures var a := ProgramExpenseAddress(programId, signer, id);
      Delete(store, programId, signer, a, id).Ok? && a !in Delete(store, programId, signer, a, id).value
  {
  }

  /** A second `initialize` for the same signer and id fails, whatever it carries. */
  lemma InitializeTwiceFails(store: Store, programId: Pubkey, signer: Pubkey, id: u64,
                             n1: string, a1: u64, n2: string, a2: u64)
    requires Initialize(store, programId, signer, ProgramExpenseAddress(programId, signer, id), id, n1, a1).Ok?
    ensures var s1 := Initialize(store, programId, signer, ProgramExpenseAddress(programId, signer, id), id, n1, a1).value;
      Initialize(s1, programId, signer, ProgramExpenseAddress(programId, signer, id), id, n2, a2) == Err(AccountAlreadyInUse)
  {
  }
}

=== FILE: listing.dfy ===
/** The client's listing: `fetchExpenseData` reads one record, and the scan in
    `fetchExpenses` reads ids 1 to 10 in turn, keeping the reads that succeed. */
module Listing {
  import opened Wrappers
  import opened LittleEndian
  import opened Decimal
  import opened Seeds
  import opened ExpenseProgram

  /** A record as the page holds it: the id is the scanned id and the amount is text. */
  datatype ListedExpense = ListedExpense(id: nat, merchantName: string, amount: string)

  datatype Wallet = Disconnected | Connected(publicKey: Pubkey)

  /** What one scan sees: the program's accounts, the program id the client derives
      addresses with, the wallet, and the ids whose read the network fails. */
  datatype ReadEnv = ReadEnv(store: Store, clientProgramId: Pubkey, wallet: Wallet, failedReads: set<nat>)

  const SCAN_FIRST: nat := 1
  const SCAN_LAST: nat := 10

  /** The read of `expenseId` succeeds: a wallet is connected, the id fits 8 bytes,
      the network delivers the read and an account exists at the address. */
  predicate Readable(env: ReadEnv, expenseId: nat)
  {
    && env.wallet.Connected?
    && expenseId < U64_BOUND
    && expenseId !in env.failedReads
    && ProgramExpenseAddress(env.clientProgramId, env.wallet.publicKey, expenseId) in env.store
  }

  /** `fetchExpenseData`: every failure, including a missing account and a
      disconnected wallet, is caught and yields `null`. What it returns is stated
      by `FetchExpenseDataMeaning`. */
  function FetchExpenseData(env: ReadEnv, expenseId: nat): (r: Option<ListedExpense>)
  {
    match env.wallet
    case Disconnected => None
    case Connected(pk) =>
      match ClientExpensePda(env.clientProgramId, pk, expenseId)
      case None => None
      case Some(pda) =>
        if expenseId in env.failedReads || pda !in env.store then None
        else Some(ListedExpense(expenseId, env.store[pda].merchantName, DecimalString(env.store[pda].amount)))
  }

  /** A read succeeds exactly when the id is `Readable`, and then returns the
      account's name and its amount as decimal text, under the id it was asked for. */
  lemma FetchExpenseDataMeaning(env: ReadEnv, expenseId: nat)
    ensures FetchExpenseData(env, expenseId).Some? <==> Readable(env, expenseId)
    ensures Readable(env, expenseId) ==>
      var acct := env.store[ProgramExpenseAddress(env.clientProgramId, env.wallet.publicKey, expenseId)];
      FetchExpenseData(env, expenseId) == Some(ListedExpense(expenseId, acct.merchantName, DecimalString(acct.amount)))
  {
    if env.wallet.Connected? {
      ClientMatchesProgram(env.clientProgramId, env.wallet.publicKey, expenseId);
    }
  }

  function AsSeq<T>(o: Option<T>): (s: seq<T>)
  {
    match o
    case None => []
    case Some(v) => [v]
  }

  /** The records among `results`, in order; `results[i]` is the read of id `i + 1`. */
  function Successes(results: seq<Option<ListedExpense>>): (s: seq<ListedExpense>)
  {
    if |results| == 0 then [] else Successes(results[..|results| - 1]) + AsSeq(results[|results| - 1])
  }

  /** Each successful read reports the id it was asked for. */
  ghost predicate ReadsOwnIds(results: seq<Option<ListedExpense>>)
  {
    forall i :: 0 <= i < |results| && results[i].Some? ==> results[i].value.id == i + 1
  }

  /** The reads of ids 1 to `n`, in order. */
  function ReadsUpTo(env: ReadEnv, n: nat): (results: seq<Option<ListedExpense>>)
    ensures |results| == n
  {
    seq(n, i requires 0 <= i < n => FetchExpenseData(env, i + 1))
  }

  /** The records `fetchExpenses` has collected once ids 1 to `n` have been read. */
  function ScanUpTo(env: ReadEnv, n: nat): (s: seq<ListedExpense>)
  {
    Successes(ReadsUpTo(env, n))
  }

  /** The list `fetchExpenses` stores: the scan of ids 1 to 10. */
  function Scan(env: ReadEnv): (s: seq<ListedExpense>)
  {
    ScanUpTo(env, SCAN_LAST)
  }

  lemma ReadsUpToOwnIds(env: ReadEnv, n: nat)
    ensures ReadsOwnIds(ReadsUpTo(env, n))
  {
  }

  predicate Listed(expenses: seq<ListedExpense>, id: nat)
  {
    exists k :: 0 <= k < |expenses| && expenses[k].id == id
  }

  /** Only ids from 1 to the number of results are collected. */
  lemma {:induction false} SuccessesIdsInRange(results: seq<Option<ListedExpense>>)
    requires ReadsOwnIds(results)
    ensures forall k :: 0 <= k < |Successes(results)| ==> 1 <= Successes(results)[k].id <= |results|
  {
    if |results| > 0 {
      SuccessesIdsInRange(results[..|results| - 1]);
    }
  }

  /** Collected ids strictly ascend, so none repeats. */
  lemma {:induction false} SuccessesAscending(results: seq<Option<ListedExpense>>)
    requires ReadsOwnIds(results)
    ensures forall i, j :: 0 <= i < j < |Successes(results)| ==> Successes(results)[i].id < Successes(results)[j].id
  {
    if |results| > 0 {
      SuccessesAscending(results[..|results| - 1]);
      SuccessesIdsInRange(results[..|results| - 1]);
    }
  }

  /** Every collected record is what the read of its id returned. */
  lemma {:induction false} SuccessesAreReads(results: seq<Option<ListedExpense>>)
    requires ReadsOwnIds(results)
    ensures forall k :: 0 <= k < |Successes(results)| ==>
      1 <= Successes(results)[k].id <= |results| && results[Successes(results)[k].id - 1] == Some(Successes(results)[k])
  {
    SuccessesIdsInRange(results);
    if |results| > 0 {
      var init := results[..|results| - 1];
      SuccessesAreReads(init);
      var prev := Successes(init);
      var s := Successes(results);
      forall k | 0 <= k < |s|
        ensures results[s[k].id - 1] == Some(s[k])
      {
        if k < |prev| {
          assert s[k] == prev[k];
          assert results[prev[k].id - 1] == init[prev[k].id - 1];
        }
      }
    }
  }

  lemma ListedConcat(a: seq<ListedExpense>, b: seq<ListedExpense>, id: nat)
    ensures Listed(a + b, id) <==> Listed(a, id) || Listed(b, id)
  {
    var s := a + b;
    if Listed(s, id) {
      var k :| 0 <= k < |s| && s[k].id == id;
      if k >= |a| {
        assert b[k - |a|].id == id;
      }
    }
    if Listed(a, id) {
      var k :| 0 <= k < |a| && a[k].id == id;
      assert s[k].id == id;
    }
    if Listed(b, id) {
      var k :| 0 <= k < |b| && b[k].id == id;
      assert s[|a| + k].id == id;
    }
  }

  /** An id is collected exactly when it is in range and its read returns a record;
      a failed read is skipped and the scan goes on. */
  lemma {:induction false} SuccessesListExactly(results: seq<Option<ListedExpense>>, id: nat)
    requires ReadsOwnIds(results)
    ensures Listed(Successes(results), id) <==> 1 <= id <= |results| && results[id - 1].Some?
  {
    if |results| > 0 {
      var n := |results|;
      var init := results[..n - 1];
      var last := results[n - 1];
      SuccessesListExactly(init, id);
      ListedConcat(Successes(init), AsSeq(last), id);
      if last.Some? {
        assert AsSeq(last)[0].id == n;
      }
      if 1 <= id < n {
        assert init[id - 1] == results[id - 1];
      }
    }
  }

  /** Reading one more id appends that read's record, if any, to the scan. */
  lemma ScanStep(env: ReadEnv, n: nat)
    ensures ScanUpTo(env, n + 1) == ScanUpTo(env, n) + AsSeq(FetchExpenseData(env, n + 1))
  {
    assert ReadsUpTo(env, n + 1)[..n] == ReadsUpTo(env, n);
  }

  /** The scan lists an id exactly when it is in range and its read succeeds. */
  lemma ScanListsExactlyReadable(env: ReadEnv, n: nat, id: nat)
    ensures Listed(ScanUpTo(env, n), id) <==> 1 <= id <= n && Readable(env, id)
  {
    SuccessesListExactly(ReadsUpTo(env, n), id);
    FetchExpenseDataMeaning(env, id);
  }

  /** A scanned record is what the read of its id returned. */
  lemma ScanItemsAreReads(env: ReadEnv, n: nat)
    ensures forall k :: 0 <= k < |ScanUpTo(env, n)| ==>
      1 <= ScanUpTo(env, n)[k].id <= n && FetchExpenseData(env, ScanUpTo(env, n)[k].id) == Some(ScanUpTo(env, n)[k])
  {
    SuccessesAreReads(ReadsUpTo(env, n));
  }

  /** The scan does not depend on an account at an address no scanned id derives:
      a record with an id above 10, say, is never listed whether or not it exists. */
  lemma ScanIgnoresOtherAddresses(env: ReadEnv, n: nat, a: Address, acct: ExpenseAccount)
    requires env.wallet.Connected?
    requires forall i: u64 :: 1 <= i <= n ==> a != ProgramExpenseAddress(env.clientProgramId, env.wallet.publicKey, i)
    ensures ScanUpTo(env.(store := env.store[a := acct]), n) == ScanUpTo(env, n)
  {
    var env' := env.(store := env.store[a := acct]);
    forall i | 0 <= i < n
      ensures ReadsUpTo(env', n)[i] == ReadsUpTo(env, n)[i]
    {
      FetchExpenseDataMeaning(env', i + 1);
      FetchExpenseDataMeaning(env, i + 1);
      assert Readable(env', i + 1) <==> Readable(env, i + 1);
    }
    assert ReadsUpTo(env', n) == ReadsUpTo(env, n);
  }

  /** The loop of `fetchExpenses`, reading ids 1 to 10 in order. */
  method ScanExpenses(env: ReadEnv) returns (expenses: seq<ListedExpense>)
    ensures expenses == Scan(env)
    ensures forall k :: 0 <= k < |expenses| ==> SCAN_FIRST <= expenses[k].id <= SCAN_LAST
    ensures forall i, j :: 0 <= i < j < |expenses| ==> expenses[i].id < expenses[j].id
    ensures forall id :: SCAN_FIRST <= id <= SCAN_LAST ==> (Listed(expenses, id) <==> Readable(env, id))
  {
    expenses := [];
    var expenseId := 1;
    while expenseId <= 10
      invariant 1 <= expenseId <= 11
      invariant expenses == ScanUpTo(env, expenseId - 1)
    {
      var expense := FetchExpenseData(env, expenseId);
      ScanStep(env, expenseId - 1);
      if expense.Some? {
        expenses := expenses + [expense.value];
      }
      expenseId := expenseId + 1;
    }
    ReadsUpToOwnIds(env, SCAN_LAST);
    SuccessesIdsInRange(ReadsUpTo(env, SCAN_LAST));
    SuccessesAscending(ReadsUpTo(env, SCAN_LAST));
    forall id | SCAN_FIRST <= id <= SCAN_LAST
      ensures Listed(expenses, id) <==> Readable(env, id)
    {
      ScanListsExactlyReadable(env, SCAN_LAST, id);
    }
  }
}

=== FILE: little_endian.dfy ===
/** Fixed-width little-endian encoding of unsigned integers: `id.to_le_bytes()`
    in the program and `new BN(id).toArrayLike(Buffer, 'le', 8)` in the client. */
module LittleEndian {
  import opened Wrappers

  type byte = x: int | 0 <= x < 256

  const U64_BOUND: int := 0x1_0000_0000_0000_0000

  /** Rust's `u64`. */
  type u64 = x: int | 0 <= x < U64_BOUND

  function Pow256(n: nat): (r: nat)
    ensures r >= 1
  {
    if n == 0 then 1 else 256 * Pow256(n - 1)
  }

  /** The low `width` bytes of `x`, least significant first. */
  function LeBytes(x: nat, width: nat): (r: seq<byte>)
    ensures |r| == width
  {
    if width == 0 then [] else [x % 256] + LeBytes(x / 256, width - 1)
  }

  /** The unsigned integer a little-endian byte string denotes. */
  function LeValue(bs: seq<byte>): (r: nat)
    ensures r < Pow256(|bs|)
  {
    if |bs| == 0 then 0 else bs[0] + 256 * LeValue(bs[1..])
  }

  lemma MulMonotone(a: nat, x: int, y: int)
    requires x <= y
    ensures a * x <= a * y
  {
    var d := y - x;
    assert a * y == a * x + a * d;
  }

  lemma DivModUnique(x: int, d: int, q: int, r: int)
    requires d > 0 && 0 <= r < d && x == d * q + r
    ensures x / d == q && x % d == r
  {
    var q' := x / d;
    var r' := x % d;
    assert d * (q' - q) == r - r';
    if q' > q {
      MulMonotone(d, 1, q' - q);
    } else if q' < q {
      MulMonotone(d, 1, q - q');
    }
  }

  lemma DivDiv(x: nat, a: nat, b: nat)
    requires a > 0 && b > 0
    ensures x / a / b == x / (a * b)
  {
    var q := x / a;
    var r := x % a;
    var q2 := q / b;
    var r2 := q % b;
    calc {
      x;
      a * q + r;
      a * (b * q2 + r2) + r;
      (a * b) * q2 + (a * r2 + r);
    }
    MulMonotone(a, r2, b - 1);
    DivModUnique(x, a * b, q2, a * r2 + r);
  }

  /** Byte `i` of the encoding is digit `i` of `x` in base 256. */
  lemma {:induction false} LeBytesDigit(x: nat, width: nat, i: nat)
    requires i < width
    ensures LeBytes(x, width)[i] == (x / Pow256(i)) % 256
  {
    if i > 0 {
      LeBytesDigit(x / 256, width - 1, i - 1);
      DivDiv(x, 256, Pow256(i - 1));
    }
  }

  /** Decoding the encoding of a value that fits the width gives the value back. */
  lemma {:induction false} LeRoundTrip(x: nat, width: nat)
    requires x < Pow256(width)
    ensures LeValue(LeBytes(x, width)) == x
  {
    if width > 0 {
      var rest := LeBytes(x / 256, width - 1);
      assert LeBytes(x, width)[1..] == rest;
      LeRoundTrip(x / 256, width - 1);
    }
  }

  /** Encoding the value of a byte string at its own width gives the bytes back. */
  lemma {:induction false} LeValueRoundTrip(bs: seq<byte>)
    ensures LeBytes(LeValue(bs), |bs|) == bs
  {
    if |bs| > 0 {
      var v := LeValue(bs[1..]);
      DivModUnique(bs[0] + 256 * v, 256, v, bs[0]);
      LeValueRoundTrip(bs[1..]);
    }
  }

  /** Two values that fit the width have the same encoding only if they are equal. */
  lemma LeBytesInjective(x: nat, y: nat, width: nat)
    requires x < Pow256(width) && y < Pow256(width)
    ensures LeBytes(x, width) == LeBytes(y, width) <==> x == y
  {
    if LeBytes(x, width) == LeBytes(y, width) {
      LeRoundTrip(x, width);
      LeRoundTrip(y, width);
    }
  }

  lemma Pow256EightIsU64Bound()
    ensures Pow256(8) == U64_BOUND
  {
  }

  /** Rust's `u64::to_le_bytes`: always exactly 8 bytes. */
  function U64LeBytes(x: u64): (r: seq<byte>)
    ensures |r| == 8
  {
    LeBytes(x, 8)
  }

  /** The 8 bytes of a `u64` decode to the value, and only that value has them. */
  lemma U64LeBytesRoundTrip(x: u64, y: u64)
    ensures LeValue(U64LeBytes(x)) == x
    ensures U64LeBytes(x) == U64LeBytes(y) <==> x == y
  {
    Pow256EightIsU64Bound();
    LeRoundTrip(x, 8);
    LeBytesInjective(x, y, 8);
  }

  /** bn.js `toArrayLike(Buffer, 'le', width)`: the value padded to `width` bytes,
      or a thrown "byte array longer than desired length" when it needs more.
      A width of 0 means "as many bytes as the value needs" in bn.js; the page
      always passes 8, so only positive widths are modelled. */
  function BnToArrayLikeLe(x: nat, width: nat): (r: Option<seq<byte>>)
    requires width > 0
    ensures r.Some? <==> x < Pow256(width)
    ensures r.Some? ==> |r.value| == width
  {
    if x < Pow256(width) then
      Some(LeBytes(x, width))
    else
      None
  }

  /** The client's 8-byte id encoding agrees with the program's `to_le_bytes` on every u64,
      and rejects every id that is not a u64. */
  lemma ClientIdBytesMatchProgram(x: nat)
    ensures x < U64_BOUND ==> BnToArrayLikeLe(x, 8) == Some(U64LeBytes(x))
    ensures x < U64_BOUND ==> LeValue(BnToArrayLikeLe(x, 8).value) == x
    ensures x >= U64_BOUND ==> BnToArrayLikeLe(x, 8).None?
  {
    Pow256EightIsU64Bound();
    if x < U64_BOUND {
      LeRoundTrip(x, 8);
    }
  }
}

=== FILE: page.dfy ===
/** The page's state machine: the form fields, the edit-mode and busy flags,
    and the create, update and delete handlers that drive the program. Every
    handler is a function from the state it starts in, and the network's
    answers, to the states it passes through and the ledger it leaves. */
module Page {
  import opened Wrappers
  import opened LittleEndian
  import opened Decimal
  import opened Seeds
  import opened ExpenseProgram
  import opened Listing

  datatype Form = Form(expenseId: string, merchantName: string, amount: string)

  const EmptyForm: Form := Form("", "", "")

  datatype Ui = Ui(expenses: seq<ListedExpense>, form: Form, editMode: bool, isFetching: bool, isTransacting: bool)

  /** The alert a handler raises. */
  datatype Notice = ConnectWallet | FillAllFields | Created | Updated | Deleted | Failed

  /** The wallet, and the program id the page derives addresses with. */
  datatype Session = Session(wallet: Wallet, clientProgramId: Pubkey)

  /** The chain: the deployed program's id and its accounts. */
  datatype Ledger = Ledger(programId: Pubkey, store: Store)

  /** What the network decides: whether `.rpc()` delivers the transaction to the
      program, whether `confirmTransaction(txSig, "finalized")` resolves, and
      which ids' reads fail during the refresh. */
  datatype Network = Network(delivered: bool, finalized: bool, failedReads: set<nat>)

  /** The states a handler passes through, one per step, the ledger it leaves and its alert. */
  datatype Outcome = Outcome(trace: seq<Ui>, ledger: Ledger, notice: Option<Notice>)

  /** The state once a handler has returned. */
  function Settled(ui: Ui, trace: seq<Ui>): (r: Ui)
  {
    if |trace| == 0 then ui else trace[|trace| - 1]
  }

  /** `isTransacting` is raised from the first state on and lowered in the last. */
  ghost predicate TransactingBracket(trace: seq<Ui>)
  {
    && |trace| >= 2
    && (forall k :: 0 <= k < |trace| - 1 ==> trace[k].isTransacting)
    && !trace[|trace| - 1].isTransacting
  }

  function ReadEnvOf(session: Session, ledger: Ledger, failedReads: set<nat>): (env: ReadEnv)
  {
    ReadEnv(ledger.store, session.clientProgramId, session.wallet, failedReads)
  }

  /** `fetchExpenses`: nothing without a wallet; otherwise raise `isFetching`,
      scan ids 1 to 10, store the list and lower the flag. The scan never throws,
      so the list is always stored. */
  function FetchExpenses(ui: Ui, session: Session, ledger: Ledger, failedReads: set<nat>): (trace: seq<Ui>)
    ensures |trace| == 0 <==> session.wallet.Disconnected?
    ensures |trace| > 0 ==> |trace| == 2 && trace[0].isFetching && !trace[1].isFetching
    ensures forall k :: 0 <= k < |trace| ==>
      trace[k].form == ui.form && trace[k].editMode == ui.editMode && trace[k].isTransacting == ui.isTransacting
  {
    if session.wallet.Disconnected? then []
    else
      var busy := ui.(isFetching := true);
      [busy, busy.(expenses := Scan(ReadEnvOf(session, ledger, failedReads)), isFetching := false)]
  }

  /** The list `fetchExpenses` stores holds ids 1 to 10 only, and exactly those whose read succeeds. */
  lemma FetchExpensesListing(ui: Ui, session: Session, ledger: Ledger, failedReads: set<nat>)
    requires session.wallet.Connected?
    ensures var shown := FetchExpenses(ui, session, ledger, failedReads)[1].expenses;
      && (forall k :: 0 <= k < |shown| ==> SCAN_FIRST <= shown[k].id <= SCAN_LAST)
      && (forall id :: SCAN_FIRST <= id <= SCAN_LAST ==>
            (Listed(shown, id) <==> Readable(ReadEnvOf(session, ledger, failedReads), id)))
  {
    var env := ReadEnvOf(session, ledger, failedReads);
    ReadsUpToOwnIds(env, SCAN_LAST);
    SuccessesIdsInRange(ReadsUpTo(env, SCAN_LAST));
    forall id | SCAN_FIRST <= id <= SCAN_LAST
      ensures Listed(ScanUpTo(env, SCAN_LAST), id) <==> Readable(env, id)
    {
      ScanListsExactlyReadable(env, SCAN_LAST, id);
    }
  }

  /** `resetForm`: clear the three fields and leave edit mode; nothing else changes. */
  function ResetForm(ui: Ui): (r: Ui)
    ensures r.form.expenseId == "" && r.form.merchantName == "" && r.form.amount == "" && !r.editMode
    ensures r.expenses == ui.expenses && r.isFetching == ui.isFetching && r.isTransacting == ui.isTransacting
  {
    ui.(form := EmptyForm, editMode := false)
  }

  /** `handleUpdateFields`: copy a listed record into the form and enter edit mode. */
  function HandleUpdateFields(ui: Ui, e: ListedExpense): (r: Ui)
    ensures r.editMode
    ensures ParseBn(r.form.expenseId) == Some(e.id) && r.form.merchantName == e.merchantName && r.form.amount == e.amount
    ensures r.expenses == ui.expenses && r.isFetching == ui.isFetching && r.isTransacting == ui.isTransacting
  {
    DecimalRoundTrip(e.id);
    ui.(form := Form(DecimalString(e.id), e.merchantName, e.amount), editMode := true)
  }

  /** The arguments of an initialize or update once converted: the PDA and the
      u64 id from `new BN(expenseId)`, the u64 amount from `new BN(amount)`. */
  datatype Write = Write(account: Address, id: u64, amount: u64)

  /** The client-side conversions before sending; a conversion that throws is `None`. */
  function PrepareWrite(clientProgramId: Pubkey, signer: Pubkey, form: Form): (w: Option<Write>)
    ensures w.Some? <==> ParseU64(form.expenseId).Some? && ParseU64(form.amount).Some?
    ensures w.Some? ==> && w.value.id == ParseU64(form.expenseId).value
                        && w.value.amount == ParseU64(form.amount).value
                        && w.value.account == ProgramExpenseAddress(clientProgramId, signer, w.value.id)
  {
    match ParseBn(form.expenseId)
    case None => None
    case Some(id) =>
      ClientMatchesProgram(clientProgramId, signer, id);
      match ClientExpensePda(clientProgramId, signer, id)
      case None => None
      case Some(pda) =>
        match ParseU64(form.amount)
        case None => None
        case Some(amount) => Some(Write(pda, id, amount))
  }

  datatype TxResult = TxResult(ledger: Ledger, confirmed: bool)

  /** `.rpc()` then `confirmTransaction(txSig, "finalized")`. A transaction that is
      not delivered, or that the program rejects, changes nothing; one the program
      accepts is applied, and the client hears of success only if finalization is
      confirmed as well. */
  function Transact(ledger: Ledger, signer: Pubkey, account: Address, ix: Instruction, net: Network): (t: TxResult)
    ensures t.ledger.programId == ledger.programId
    ensures t.confirmed ==> net.delivered && net.finalized
    ensures t.ledger != ledger || t.confirmed ==>
      && net.delivered
      && Execute(ledger.store, ledger.programId, signer, account, ix).Ok?
      && t.ledger.store == Execute(ledger.store, ledger.programId, signer, account, ix).value
    ensures net.delivered && Execute(ledger.store, ledger.programId, signer, account, ix).Ok? ==>
      && t.ledger.store == Execute(ledger.store, ledger.programId, signer, account, ix).value
      && t.confirmed == net.finalized
    ensures !net.delivered || Execute(ledger.store, ledger.programId, signer, account, ix).Err? ==>
      t.ledger == ledger && !t.confirmed
  {
    if !net.delivered then TxResult(ledger, false)
    else
      match Execute(ledger.store, ledger.programId, signer, account, ix)
      case Err(_) => TxResult(ledger, false)
      case Ok(store) => TxResult(ledger.(store := store), net.finalized)
  }

  function Failure(busy: Ui, ledger: Ledger): (o: Outcome)
    requires busy.isTransacting
    ensures TransactingBracket(o.trace) && o.trace[0] == busy
    ensures o.ledger == ledger && o.notice == Some(Failed)
    ensures Settled(busy, o.trace).form == busy.form && Settled(busy, o.trace).editMode == busy.editMode
    ensures Settled(busy, o.trace).expenses == busy.expenses && Settled(busy, o.trace).isFetching == busy.isFetching
  {
    Outcome([busy, busy.(isTransacting := false)], ledger, Some(Failed))
  }

  /** What follows the transaction inside `try`/`finally`: on success refresh the
      list, reset the form if asked and report `success`; otherwise report the
      failure. `finally` lowers `isTransacting` either way. */
  function Conclude(busy: Ui, session: Session, tx: TxResult, failedReads: set<nat>, reset: bool, success: Notice): (o: Outcome)
    requires busy.isTransacting && success != Failed
    ensures TransactingBracket(o.trace) && o.trace[0] == busy
    ensures o.ledger == tx.ledger
    ensures o.notice == (if tx.confirmed then Some(success) else Some(Failed))
    ensures tx.confirmed && reset ==> Settled(busy, o.trace).form == EmptyForm && !Settled(busy, o.trace).editMode
    ensures !(tx.confirmed && reset) ==>
      Settled(busy, o.trace).form == busy.form && Settled(busy, o.trace).editMode == busy.editMode
    ensures tx.confirmed && session.wallet.Connected? ==> !Settled(busy, o.trace).isFetching
    ensures !(tx.confirmed && session.wallet.Connected?) ==>
      Settled(busy, o.trace).expenses == busy.expenses && Settled(busy, o.trace).isFetching == busy.isFetching
  {
    if !tx.confirmed then Failure(busy, tx.ledger)
    else
      var fetched := FetchExpenses(busy, session, tx.ledger, failedReads);
      var refreshed := Settled(busy, fetched);
      var done := if reset then ResetForm(refreshed) else refreshed;
      Outcome([busy] + fetched + [done.(isTransacting := false)], tx.ledger, Some(success))
  }

  predicate MissingField(form: Form)
  {
    form.expenseId == "" || form.merchantName == "" || form.amount == ""
  }

  /** `initializeExpense`. */
  function InitializeExpense(ui: Ui, session: Session, ledger: Ledger, net: Network): (o: Outcome)
    ensures |o.trace| == 0 <==> session.wallet.Disconnected? || MissingField(ui.form)
    ensures |o.trace| == 0 ==> o.ledger == ledger
    ensures |o.trace| > 0 ==> TransactingBracket(o.trace) && o.trace[0] == ui.(isTransacting := true)
    ensures session.wallet.Disconnected? ==> o.notice == Some(ConnectWallet)
    ensures session.wallet.Connected? && MissingField(ui.form) ==> o.notice == Some(FillAllFields)
    ensures |o.trace| > 0 ==> o.notice == Some(Created) || o.notice == Some(Failed)
    ensures o.ledger.programId == ledger.programId
    ensures o.ledger != ledger ==>
      && session.wallet.Connected? && net.delivered && ParseU64(ui.form.expenseId).Some?
      && session.clientProgramId == ledger.programId
      && OnlyChanged(ledger.store, o.ledger.store,
                     ProgramExpenseAddress(ledger.programId, session.wallet.publicKey, ParseU64(ui.form.expenseId).value))
    ensures o.notice == Some(Created) ==>
      && session.wallet.Connected?
      && session.clientProgramId == ledger.programId
      && ParseU64(ui.form.expenseId).Some? && ParseU64(ui.form.amount).Some?
      && Settled(ui, o.trace).form == EmptyForm && !Settled(ui, o.trace).editMode
      && (var a := ProgramExpenseAddress(ledger.programId, session.wallet.publicKey, ParseU64(ui.form.expenseId).value);
          && a !in ledger.store && a in o.ledger.store
          && o.ledger.store[a] == ExpenseAccount(ParseU64(ui.form.expenseId).value, session.wallet.publicKey,
                                                 ui.form.merchantName, ParseU64(ui.form.amount).value))
  {
    if session.wallet.Disconnected? then Outcome([], ledger, Some(ConnectWallet))
    else if MissingField(ui.form) then Outcome([], ledger, Some(FillAllFields))
    else
      var busy := ui.(isTransacting := true);
      var signer := session.wallet.publicKey;
      match PrepareWrite(session.clientProgramId, signer, ui.form)
      case None => Failure(busy, ledger)
      case Some(w) =>
        var tx := Transact(ledger, signer, w.account, InitializeIx(w.id, ui.form.merchantName, w.amount), net);
        Conclude(busy, session, tx, net.failedReads, true, Created)
  }

  /** `updateExpense`. Outside edit mode it does nothing; it does not check the
      wallet itself, so a missing wallet surfaces as a failure inside `try`. */
  function UpdateExpense(ui: Ui, session: Session, ledger: Ledger, net: Network): (o: Outcome)
    ensures |o.trace| == 0 <==> !ui.editMode
    ensures |o.trace| == 0 ==> o.ledger == ledger && o.notice.None?
    ensures |o.trace| > 0 ==> TransactingBracket(o.trace) && o.trace[0] == ui.(isTransacting := true)
    ensures ui.editMode && session.wallet.Disconnected? ==> o.ledger == ledger && o.notice == Some(Failed)
    ensures |o.trace| > 0 ==> o.notice == Some(Updated) || o.notice == Some(Failed)
    ensures o.ledger.programId == ledger.programId
    ensures o.ledger != ledger ==>
      && session.wallet.Connected? && net.delivered && ParseU64(ui.form.expenseId).Some?
      && session.clientProgramId == ledger.programId
      && OnlyChanged(ledger.store, o.ledger.store,
                     ProgramExpenseAddress(ledger.programId, session.wallet.publicKey, ParseU64(ui.form.expenseId).value))
    ensures o.notice == Some(Updated) ==>
      && session.wallet.Connected?
      && session.clientProgramId == ledger.programId
      && ParseU64(ui.form.expenseId).Some? && ParseU64(ui.form.amount).Some?
      && Settled(ui, o.trace).form == EmptyForm && !Settled(ui, o.trace).editMode
      && (var a := ProgramExpenseAddress(ledger.programId, session.wallet.publicKey, ParseU64(ui.form.expenseId).value);
          && a in ledger.store && a in o.ledger.store
          && o.ledger.store[a] == ExpenseAccount(ParseU64(ui.form.expenseId).value, ledger.store[a].owner,
                                                 ui.form.merchantName, ParseU64(ui.form.amount).value))
  {
    if !ui.editMode then Outcome([], ledger, None)
    else
      var busy := ui.(isTransacting := true);
      match session.wallet
      case Disconnected => Failure(busy, ledger)
      case Connected(signer) =>
        match PrepareWrite(session.clientProgramId, signer, ui.form)
        case None => Failure(busy, ledger)
        case Some(w) =>
          var tx := Transact(ledger, signer, w.account, UpdateIx(w.id, ui.form.merchantName, w.amount), net);
          Conclude(busy, session, tx, net.failedReads, true, Updated)
  }

  /** `deleteExpense(expenseId)`, where `confirmed` is the answer to the
      confirmation prompt. It does not reset the form. */
  function DeleteExpense(ui: Ui, session: Session, ledger: Ledger, net: Network, expenseId: nat, confirmed: bool): (o: Outcome)
    ensures |o.trace| == 0 <==> !confirmed
    ensures |o.trace| == 0 ==> o.ledger == ledger && o.notice.None?
    ensures |o.trace| > 0 ==> TransactingBracket(o.trace) && o.trace[0] == ui.(isTransacting := true)
    ensures |o.trace| > 0 ==> o.notice == Some(Deleted) || o.notice == Some(Failed)
    ensures Settled(ui, o.trace).form == ui.form && Settled(ui, o.trace).editMode == ui.editMode
    ensures o.ledger.programId == ledger.programId
    ensures o.ledger != ledger ==>
      && session.wallet.Connected? && net.delivered && expenseId < U64_BOUND
      && session.clientProgramId == ledger.programId
      && OnlyChanged(ledger.store, o.ledger.store, ProgramExpenseAddress(ledger.programId, session.wallet.publicKey, expenseId))
    ensures o.notice == Some(Deleted) ==>
      && session.wallet.Connected?
      && session.clientProgramId == ledger.programId
      && expenseId < U64_BOUND
      && var a := ProgramExpenseAddress(ledger.programId, session.wallet.publicKey, expenseId);
         a in ledger.store && a !in o.ledger.store
  {
    if !confirmed then Outcome([], ledger, None)
    else
      var busy := ui.(isTransacting := true);
      match session.wallet
      case Disconnected => Failure(busy, ledger)
      case Connected(signer) =>
        match ClientExpensePda(session.clientProgramId, signer, expenseId)
        case None => Failure(busy, ledger)
        case Some(pda) =>
          var tx := Transact(ledger, signer, pda, DeleteIx(expenseId), net);
          Conclude(busy, session, tx, net.failedReads, false, Deleted)
  }

  /** After a confirmed transaction the page shows the scan of the new ledger. */
  lemma ConcludeShowsScan(busy: Ui, session: Session, tx: TxResult, failedReads: set<nat>, reset: bool, success: Notice)
    requires busy.isTransacting && success != Failed
    requires tx.confirmed && session.wallet.Connected?
    ensures Settled(busy, Conclude(busy, session, tx, failedReads, reset, success).trace).expenses
         == Scan(ReadEnvOf(session, tx.ledger, failedReads))
    ensures var o := Conclude(busy, session, tx, failedReads, reset, success);
      o.trace[1].isFetching && o.trace[1].isTransacting
  {
  }

  /** A record in the scanned range whose read succeeds is shown as that read returned it. */
  lemma ShownAsRead(env: ReadEnv, id: nat)
    requires SCAN_FIRST <= id <= SCAN_LAST && Readable(env, id)
    ensures FetchExpenseData(env, id).value in Scan(env)
  {
    ScanListsExactlyReadable(env, SCAN_LAST, id);
    ScanItemsAreReads(env, SCAN_LAST);
    FetchExpenseDataMeaning(env, id);
    var s := Scan(env);
    var k :| 0 <= k < |s| && s[k].id == id;
    assert s[k] == FetchExpenseData(env, id).value;
  }

  /** Editing a listed record and saving it unchanged writes back the very record:
      the id and the amount survive their trip through decimal text. */
  lemma EditThenUpdateKeepsRecord(ui: Ui, session: Session, ledger: Ledger, net: Network, id: nat)
    requires Valid(ledger.programId, ledger.store)
    requires session.clientProgramId == ledger.programId
    requires net.delivered && net.finalized
    requires FetchExpenseData(ReadEnvOf(session, ledger, net.failedReads), id).Some?
    ensures var e := FetchExpenseData(ReadEnvOf(session, ledger, net.failedReads), id).value;
      var o := UpdateExpense(HandleUpdateFields(ui, e), session, ledger, net);
      o.notice == Some(Updated) && o.ledger == ledger
  {
    var env := ReadEnvOf(session, ledger, net.failedReads);
    var e := FetchExpenseData(env, id).value;
    FetchExpenseDataMeaning(env, id);
    var pk := session.wallet.publicKey;
    var a := ProgramExpenseAddress(ledger.programId, pk, id);
    var rec := ledger.store[a];
    var edited := HandleUpdateFields(ui, e);
    U64DecimalRoundTrip(id);
    U64DecimalRoundTrip(rec.amount);
    assert edited.form == Form(DecimalString(id), rec.merchantName, DecimalString(rec.amount));
    ProgramAddressInjective(ledger.programId, rec.owner, rec.id, pk, id);
    assert PrepareWrite(session.clientProgramId, pk, edited.form) == Some(Write(a, id, rec.amount));
    var r := Update(ledger.store, ledger.programId, pk, a, id, rec.merchantName, rec.amount);
    assert r.Ok? && r.value[a] == rec;
    assert r.value == ledger.store;
  }

  /** Create, then list: a created record in the scanned range whose read succeeds is shown. */
  lemma CreatedThenListed(ui: Ui, session: Session, ledger: Ledger, net: Network)
    requires InitializeExpense(ui, session, ledger, net).notice == Some(Created)
    requires ParseU64(ui.form.expenseId).Some?
    requires var id := ParseU64(ui.form.expenseId).value; SCAN_FIRST <= id <= SCAN_LAST && id !in net.failedReads
    ensures var o := InitializeExpense(ui, session, ledger, net);
      ListedExpense(ParseU64(ui.form.expenseId).value, ui.form.merchantName, DecimalString(ParseU64(ui.form.amount).value))
        in Settled(ui, o.trace).expenses
  {
    var o := InitializeExpense(ui, session, ledger, net);
    var pk := session.wallet.publicKey;
    var w := PrepareWrite(session.clientProgramId, pk, ui.form).value;
    var tx := Transact(ledger, pk, w.account, InitializeIx(w.id, ui.form.merchantName, w.amount), net);
    ConcludeShowsScan(ui.(isTransacting := true), session, tx, net.failedReads, true, Created);
    ShownAsRead(ReadEnvOf(session, o.ledger, net.failedReads), w.id);
  }

  /** Update, then list: the shown record carries the new name and amount, not the old ones. */
  lemma UpdatedThenListed(ui: Ui, session: Session, ledger: Ledger, net: Network)
    requires UpdateExpense(ui, session, ledger, net).notice == Some(Updated)
    requires ParseU64(ui.form.expenseId).Some?
    requires var id := ParseU64(ui.form.expenseId).value; SCAN_FIRST <= id <= SCAN_LAST && id !in net.failedReads
    ensures var o := UpdateExpense(ui, session, ledger, net);
      ListedExpense(ParseU64(ui.form.expenseId).value, ui.form.merchantName, DecimalString(ParseU64(ui.form.amount).value))
        in Settled(ui, o.trace).expenses
  {
    var o := UpdateExpense(ui, session, ledger, net);
    var pk := session.wallet.publicKey;
    var w := PrepareWrite(session.clientProgramId, pk, ui.form).value;
    var tx := Transact(ledger, pk, w.account, UpdateIx(w.id, ui.form.merchantName, w.amount), net);
    ConcludeShowsScan(ui.(isTransacting := true), session, tx, net.failedReads, true, Updated);
    ShownAsRead(ReadEnvOf(session, o.ledger, net.failedReads), w.id);
  }

  /** Delete, then list: the deleted id is no longer shown. */
  lemma DeletedThenUnlisted(ui: Ui, session: Session, ledger: Ledger, net: Network, expenseId: nat)
    requires DeleteExpense(ui, session, ledger, net, expenseId, true).notice == Some(Deleted)
    ensures !Listed(Settled(ui, DeleteExpense(ui, session, ledger, net, expenseId, true).trace).expenses, expenseId)
  {
    var o := DeleteExpense(ui, session, ledger, net, expenseId, true);
    var pk := session.wallet.publicKey;
    var pda := ClientExpensePda(session.clientProgramId, pk, expenseId).value;
    var tx := Transact(ledger, pk, pda, DeleteIx(expenseId), net);
    ConcludeShowsScan(ui.(isTransacting := true), session, tx, net.failedReads, false, Deleted);
    ScanListsExactlyReadable(ReadEnvOf(session, o.ledger, net.failedReads), SCAN_LAST, expenseId);
  }

  /** During the refresh that follows a successful create both busy flags are
      raised at once: the two are not mutually exclusive. */
  lemma BothFlagsDuringRefresh(ui: Ui, session: Session, ledger: Ledger, net: Network)
    requires InitializeExpense(ui, session, ledger, net).notice == Some(Created)
    ensures var o := InitializeExpense(ui, session, ledger, net);
      exists k :: 0 <= k < |o.trace| && o.trace[k].isFetching && o.trace[k].isTransacting
  {
    var pk := session.wallet.publicKey;
    var w := PrepareWrite(session.clientProgramId, pk, ui.form).value;
    var tx := Transact(ledger, pk, w.account, InitializeIx(w.id, ui.form.merchantName, w.amount), net);
    ConcludeShowsScan(ui.(isTransacting := true), session, tx, net.failedReads, true, Created);
  }

  /** When the page derives addresses under another program id than the deployed
      program's, no create, update or delete can ever change the ledger. */
  lemma MismatchedProgramIdNeverWrites(ui: Ui, session: Session, ledger: Ledger, net: Network, expenseId: nat, confirmed: bool)
    requires session.clientProgramId != ledger.programId
    ensures InitializeExpense(ui, session, ledger, net).ledger == ledger
    ensures UpdateExpense(ui, session, ledger, net).ledger == ledger
    ensures DeleteExpense(ui, session, ledger, net, expenseId, confirmed).ledger == ledger
  {
  }

  /** A create the program accepts but whose finalization is not confirmed is
      reported as a failure although the record now exists. */
  lemma UnconfirmedCreateStillWrites(ui: Ui, session: Session, ledger: Ledger, net: Network)
    requires session.wallet.Connected? && !MissingField(ui.form)
    requires net.delivered && !net.finalized
    requires PrepareWrite(session.clientProgramId, session.wallet.publicKey, ui.form).Some?
    requires var w := PrepareWrite(session.clientProgramId, session.wallet.publicKey, ui.form).value;
      Initialize(ledger.store, ledger.programId, session.wallet.publicKey, w.account, w.id, ui.form.merchantName, w.amount).Ok?
    ensures var o := InitializeExpense(ui, session, ledger, net);
      o.notice == Some(Failed) && o.ledger != ledger
  {
    var w := PrepareWrite(session.clientProgramId, session.wallet.publicKey, ui.form).value;
    var r := Initialize(ledger.store, ledger.programId, session.wallet.publicKey, w.account, w.id, ui.form.merchantName, w.amount);
    assert w.account in r.value && w.account !in ledger.store;
  }

  /** Once the form is reset a create is refused before anything is sent. */
  lemma ResetBlocksCreate(ui: Ui, session: Session, ledger: Ledger, net: Network)
    requires session.wallet.Connected?
    ensures var o := InitializeExpense(ResetForm(ui), session, ledger, net);
      |o.trace| == 0 && o.ledger == ledger && o.notice == Some(FillAllFields)
  {
  }

  /** What the program needs to accept the page's create: a wallet, every field
      filled, an id and an amount that convert to u64, the deployed program id,
      a free address and a name that fits. */
  predicate CreateAccepted(ui: Ui, session: Session, ledger: Ledger)
  {
    && session.wallet.Connected?
    && !MissingField(ui.form)
    && ParseU64(ui.form.expenseId).Some? && ParseU64(ui.form.amount).Some?
    && session.clientProgramId == ledger.programId
    && ProgramExpenseAddress(ledger.programId, session.wallet.publicKey, ParseU64(ui.form.expenseId).value) !in ledger.store
    && Utf8Length(ui.form.merchantName) <= MAX_NAME_BYTES
  }

  /** A create is reported as a success exactly when the program accepts it and the
      network delivers and finalizes it; the ledger then holds the new record and
      nothing else has changed. */
  lemma CreateSucceeds(ui: Ui, session: Session, ledger: Ledger, net: Network)
    ensures InitializeExpense(ui, session, ledger, net).notice == Some(Created)
        <==> CreateAccepted(ui, session, ledger) && net.delivered && net.finalized
    ensures CreateAccepted(ui, session, ledger) && net.delivered && net.finalized ==>
      var id := ParseU64(ui.form.expenseId).value;
      var a := ProgramExpenseAddress(ledger.programId, session.wallet.publicKey, id);
      InitializeExpense(ui, session, ledger, net).ledger.store
        == ledger.store[a := ExpenseAccount(id, session.wallet.publicKey, ui.form.merchantName, ParseU64(ui.form.amount).value)]
  {
  }

  /** What the program needs to accept the page's update: edit mode, a wallet, an
      id and an amount that convert to u64, the deployed program id, a record at
      the address and a new name that fits. */
  predicate UpdateAccepted(ui: Ui, session: Session, ledger: Ledger)
  {
    && ui.editMode
    && session.wallet.Connected?
    && ParseU64(ui.form.expenseId).Some? && ParseU64(ui.form.amount).Some?
    && session.clientProgramId == ledger.programId
    && ProgramExpenseAddress(ledger.programId, session.wallet.publicKey, ParseU64(ui.form.expenseId).value) in ledger.store
    && Utf8Length(ui.form.merchantName) <= MAX_NAME_BYTES
  }

  /** An update is reported as a success exactly when the program accepts it and
      the network delivers and finalizes it. */
  lemma UpdateSucceeds(ui: Ui, session: Session, ledger: Ledger, net: Network)
    ensures UpdateExpense(ui, session, ledger, net).notice == Some(Updated)
        <==> UpdateAccepted(ui, session, ledger) && net.delivered && net.finalized
  {
  }

  /** A successful update leaves the record carrying the form's name and amount
      under its old owner, and changes nothing else. */
  lemma UpdateSucceedsStores(ui: Ui, session: Session, ledger: Ledger, net: Network)
    requires UpdateAccepted(ui, session, ledger) && net.delivered && net.finalized
    ensures var id := ParseU64(ui.form.expenseId).value;
      var a := ProgramExpenseAddress(ledger.programId, session.wallet.publicKey, id);
      UpdateExpense(ui, session, ledger, net).ledger.store
        == ledger.store[a := ExpenseAccount(id, ledger.store[a].owner, ui.form.merchantName, ParseU64(ui.form.amount).value)]
  {
  }

  /** A delete is reported as a success exactly when the prompt is confirmed, a
      wallet is connected, the page uses the deployed program id, a record exists
      at the address and the network delivers and finalizes it; only that record
      is then gone. */
  lemma DeleteSucceeds(ui: Ui, session: Session, ledger: Ledger, net: Network, expenseId: nat, confirmed: bool)
    ensures DeleteExpense(ui, session, ledger, net, expenseId, confirmed).notice == Some(Deleted)
        <==> && confirmed && session.wallet.Connected? && expenseId < U64_BOUND
             && session.clientProgramId == ledger.programId
             && ProgramExpenseAddress(ledger.programId, session.wallet.publicKey, expenseId) in ledger.store
             && net.delivered && net.finalized
    ensures DeleteExpense(ui, session, ledger, net, expenseId, confirmed).notice == Some(Deleted) ==>
      var a := ProgramExpenseAddress(ledger.programId, session.wallet.publicKey, expenseId);
      DeleteExpense(ui, session, ledger, net, expenseId, confirmed).ledger.store
        == map b | b in ledger.store && b != a :: ledger.store[b]
  {
  }

  /** Every exit path of `initializeExpense` leaves both busy flags as low as it
      found them, and one that reports no success leaves the list alone. */
  lemma CreateSettlesIdle(ui: Ui, session: Session, ledger: Ledger, net: Network)
    ensures var o := InitializeExpense(ui, session, ledger, net);
      !ui.isFetching && !ui.isTransacting ==> !Settled(ui, o.trace).isFetching && !Settled(ui, o.trace).isTransacting
    ensures var o := InitializeExpense(ui, session, ledger, net);
      o.notice != Some(Created) ==> Settled(ui, o.trace).expenses == ui.expenses && Settled(ui, o.trace).isFetching == ui.isFetching
  {
  }

  /** The same for `updateExpense`. */
  lemma UpdateSettlesIdle(ui: Ui, session: Session, ledger: Ledger, net: Network)
    ensures var o := UpdateExpense(ui, session, ledger, net);
      !ui.isFetching && !ui.isTransacting ==> !Settled(ui, o.trace).isFetching && !Settled(ui, o.trace).isTransacting
    ensures var o := UpdateExpense(ui, session, ledger, net);
      o.notice != Some(Updated) ==> Settled(ui, o.trace).expenses == ui.expenses && Settled(ui, o.trace).isFetching == ui.isFetching
  {
  }

  /** The same for `deleteExpense`. */
  lemma DeleteSettlesIdle(ui: Ui, session: Session, ledger: Ledger, net: Network, expenseId: nat, confirmed: bool)
    ensures var o := DeleteExpense(ui, session, ledger, net, expenseId, confirmed);
      !ui.isFetching && !ui.isTransacting ==> !Settled(ui, o.trace).isFetching && !Settled(ui, o.trace).isTransacting
    ensures var o := DeleteExpense(ui, session, ledger, net, expenseId, confirmed);
      o.notice != Some(Deleted) ==> Settled(ui, o.trace).expenses == ui.expenses && Settled(ui, o.trace).isFetching == ui.isFetching
  {
  }
}

=== FILE: seeds.dfy ===
/** Derivation of an expense record's address from the seeds
    `"expense" ++ owner ++ le8(id)` and a program id. */
module Seeds {
  import opened Wrappers
  import opened LittleEndian

  const PUBKEY_LEN: nat := 32

  /** A 32-byte ed25519 public key (Solana `Pubkey`). */
  type Pubkey = s: seq<byte> | |s| == PUBKEY_LEN witness seq(32, _ => 0)

  /** UTF-8 bytes of ASCII text, as `Buffer.from(s)` and Rust's `b"..."` give them. */
  function AsciiBytes(s: string): (r: seq<byte>)
    requires forall i :: 0 <= i < |s| ==> s[i] as int < 128
    ensures |r| == |s|
  {
    if |s| == 0 then [] else [s[0] as int] + AsciiBytes(s[1..])
  }

  /** The constant first seed, as the interface description lists its bytes. */
  const ExpenseTag: seq<byte> := [101, 120, 112, 101, 110, 115, 101]

  /** The listed bytes are the ASCII text `expense`, which the program writes as
      `b"expense"` and the client as `Buffer.from("expense")`. */
  lemma ExpenseTagBytes()
    ensures AsciiBytes("expense") == ExpenseTag
  {
  }

  /** A program-derived address. The hash and the bump search are not modelled:
      the address is identified with what is hashed, the concatenated seeds and
      the program id, so distinct inputs give distinct addresses. */
  datatype Address = ProgramAddress(preimage: seq<byte>, programId: Pubkey)

  /** The seeds laid end to end, as the address hash consumes them. */
  function Concat(seeds: seq<seq<byte>>): (r: seq<byte>)
  {
    if |seeds| == 0 then [] else seeds[0] + Concat(seeds[1..])
  }

  /** `findProgramAddressSync` / `find_program_address`. */
  function FindProgramAddress(seeds: seq<seq<byte>>, programId: Pubkey): (a: Address)
  {
    ProgramAddress(Concat(seeds), programId)
  }

  function ExpenseSeeds(owner: Pubkey, idBytes: seq<byte>): (seeds: seq<seq<byte>>)
  {
    [ExpenseTag, owner, idBytes]
  }

  /** The address the program's `seeds = [b"expense", signer.key().as_ref(),
      id.to_le_bytes().as_ref()]` constraint expects. */
  function ProgramExpenseAddress(programId: Pubkey, signer: Pubkey, id: u64): (a: Address)
  {
    FindProgramAddress(ExpenseSeeds(signer, U64LeBytes(id)), programId)
  }

  /** The client's `getExpensePDA`; `None` is the throw of `toArrayLike` for an id
      that does not fit 8 bytes. */
  function ClientExpensePda(programId: Pubkey, owner: Pubkey, id: nat): (r: Option<Address>)
    ensures r.Some? <==> id < U64_BOUND
  {
    Pow256EightIsU64Bound();
    match BnToArrayLikeLe(id, 8)
    case None => None
    case Some(idBytes) => Some(FindProgramAddress(ExpenseSeeds(owner, idBytes), programId))
  }

  /** The hashed bytes are 47 long: 7 tag bytes, the 32-byte owner, the 8-byte id. */
  lemma ExpensePreimageLayout(owner: Pubkey, id: u64)
    ensures Concat(ExpenseSeeds(owner, U64LeBytes(id))) == ExpenseTag + owner + U64LeBytes(id)
    ensures |Concat(ExpenseSeeds(owner, U64LeBytes(id)))| == 47
  {
    var seeds := ExpenseSeeds(owner, U64LeBytes(id));
    var tail: seq<seq<byte>> := seeds[2..];
    assert tail[1..] == [];
    assert Concat(tail) == U64LeBytes(id);
    assert seeds[1..][1..] == tail;
  }

  /** Distinct (owner, id) pairs give distinct seed byte strings, and equal pairs equal ones. */
  lemma ExpensePreimageInjective(o1: Pubkey, i1: u64, o2: Pubkey, i2: u64)
    ensures Concat(ExpenseSeeds(o1, U64LeBytes(i1))) == Concat(ExpenseSeeds(o2, U64LeBytes(i2)))
        <==> o1 == o2 && i1 == i2
  {
    var p1 := Concat(ExpenseSeeds(o1, U64LeBytes(i1)));
    var p2 := Concat(ExpenseSeeds(o2, U64LeBytes(i2)));
    ExpensePreimageLayout(o1, i1);
    ExpensePreimageLayout(o2, i2);
    if p1 == p2 {
      assert p1[7..39] == o1 && p2[7..39] == o2;
      assert p1[39..] == U64LeBytes(i1) && p2[39..] == U64LeBytes(i2);
      U64LeBytesRoundTrip(i1, i2);
    }
  }

  /** Under one program id, the expense address determines the (owner, id) pair. */
  lemma ProgramAddressInjective(programId: Pubkey, o1: Pubkey, i1: u64, o2: Pubkey, i2: u64)
    ensures ProgramExpenseAddress(programId, o1, i1) == ProgramExpenseAddress(programId, o2, i2)
        <==> o1 == o2 && i1 == i2
  {
    ExpensePreimageInjective(o1, i1, o2, i2);
  }

  /** Addresses derived under different program ids never coincide. This is the
      collision-free idealisation of the address hash itself, not a property of
      the program: it holds because the address is built from the program id. */
  lemma AddressesSeparateProgramIds(p1: Pubkey, o1: Pubkey, i1: u64, p2: Pubkey, o2: Pubkey, i2: u64)
    requires p1 != p2
    ensures ProgramExpenseAddress(p1, o1, i1) != ProgramExpenseAddress(p2, o2, i2)
  {
  }

  /** The client and the program build the same seeds, so for the same program id
      the client's PDA is the address the program checks. */
  lemma ClientMatchesProgram(programId: Pubkey, owner: Pubkey, id: nat)
    ensures id < U64_BOUND ==> ClientExpensePda(programId, owner, id) == Some(ProgramExpenseAddress(programId, owner, id))
  {
    ClientIdBytesMatchProgram(id);
  }
}

=== FILE: wrappers.dfy ===
/** Failure-carrying result types shared by the model. */
module Wrappers {

  /** A value that may be absent, in place of JavaScript's `null`. */
  datatype Option<+T> = None | Some(value: T)

  /** A success value or an error, in place of Rust's `Result` and of a thrown exception. */
  datatype Result<+T, +E> = Ok(value: T) | Err(error: E)
}
